=== FILE: README.md ===
# Interest-point pipeline skeleton (VisionWorkbench `vw::ip`)

This project models, in Dafny, the list-processing skeleton of VisionWorkbench's interest-point
detectors. The pixel processing underneath is not modelled. What is modelled:

- `InterestPoint` and its coordinate view.
- The "more interesting first" comparator.
- `crop`.
- The Harris/Noble and Laplacian-of-Gaussian interest operators: their per-pixel score, their
  threshold test and their peak type.
- The window arithmetic of `get_orientation` and its conversion of histogram modes to angles.
- The stage sequence of the single-scale detector: interest image, extrema, localisation,
  threshold, cull and orientation assignment.
- The octave loop of the multi-octave detector.
- The tiling front end that runs a detector on each tile and moves the points back into
  whole-image coordinates.

Interest values and coordinates are exact `real`s. A point list is a `seq<InterestPoint>`. Every
stage is a pure function. The stages the source runs as in-place loops over a linked list are also
written as methods that mirror those loops:

- the erase loop of `threshold`;
- the splice loop of `assign_orientations`;
- the tile merge loop;
- the octave loop.

Each such method is proved equal to its reference function. Whatever the detectors delegate
becomes a function-typed parameter, gathered in `Detector.Collaborators` and
`ScaledDetector.ScaledCollaborators`:

- gradients and the Laplacian (as per-pixel derivative data);
- `find_peaks` and `fit_peak`;
- the histogram's mode finder;
- `ImageOctave` construction and `build_next`;
- the scale↔plane lookups;
- `image_blocks` and image cropping;
- bounding-box containment.

Modules, in dependency order:

- `Results`: the `ArgumentErr` error and `Result`.
- `Lists`: order-preserving `Filter`.
- `Casts`: C++ `(int)` truncation and the `(int)(v + 0.5)` rounding idiom.
- `Descriptor`: `InterestPoint`, `Index`, `Less`, `Crop`.
- `ImageData`: `Image` and per-pixel derivative data.
- `InterestOperator`: the two operators.
- `Orientation`: `get_orientation`.
- `Culling`: the sort and truncate step.
- `Detector`: the single-scale detector, plus the threshold loop and orientation splitting that
  both detectors share.
- `Tiling`: `InterestDetectorBase::operator()`.
- `ScaledDetector`: the multi-octave detector.

Behaviour of the code that the model keeps as written:

- `(int)(v + 0.5)` truncates toward zero. It rounds half up for v ≥ -0.5; below that the
  result is one more than rounding half up, unless v + 0.5 is a whole number (`Casts.RoundToPixel`
  states both bounds). This applies to the orientation half-width, to the pixel at
  which a point's orientation is estimated, and to the `ix`/`iy` recomputed after rescaling.
- The constructors' comment (Detector.h:185-187) says that `max_points = 0` disables culling. The
  test at line 244 disables it for every `max_points` ≤ 0, negative values included.
- A non-positive octave count is accepted. It yields no points and advances the pyramid zero
  times.
- The window bounds test is strict on the far side (`left + width < cols`). The last column and row
  of a plane can therefore never be covered (`Orientation.InsideIffCentreInRange`).
- The two short constructors of the multi-octave detector store the default octave count as the
  scale count and vice versa. Both defaults are 3, so the configuration is the intended one
  (`ScaledDetector.DefaultScaledConfig`).
- Rescaling to original-image coordinates changes `x`, `y`, `ix` and `iy` only. The point's `scale`
  stays in octave units.

## Model

| member | source | states |
|---|---|---|
| Descriptor.Index | src/vw/InterestPoint/Descriptor.h:76-81 | indexing succeeds exactly for 0 ≤ index < size() = 2 and yields entry `index` of the (x, y) pair; every other index is an argument error |
| Descriptor.IndexViewIsLocation | src/vw/InterestPoint/Descriptor.h:76-81 | two points agree on every valid index iff they have the same sub-pixel location (x, y): index 0 is x and index 1 is y |
| Descriptor.LessIsStrictWeakOrder | src/vw/InterestPoint/Descriptor.h:83-85 | the comparator is irreflexive, asymmetric and transitive; incomparability is exactly equal interest, and it is transitive, so higher interest sorts first |
| Descriptor.Crop | src/vw/InterestPoint/Descriptor.h:102-111 | the crop holds exactly the input points whose (x, y) the box contains, each copied unchanged and with its input multiplicity, and is never longer than the input |
| Descriptor.CropIdempotent | src/vw/InterestPoint/Descriptor.h:102-111 | cropping twice with the same box equals cropping once |
| Descriptor.CropAppend | src/vw/InterestPoint/Descriptor.h:106-109 | crop preserves input order: the crop of a concatenation is the concatenation of the crops |
| Casts.TruncToInt | src/vw/InterestPoint/Detector.h:144 | the C++ `(int)` conversion rounds toward zero: the result is below a non-negative argument by less than 1, and above a negative one by less than 1 |
| Casts.RoundToPixel | src/vw/InterestPoint/Detector.h:306 | `(int)(v + 0.5)` lies within half a pixel of v (half up) for v ≥ -0.5, and sits between v + 0.5 and v + 1.5 below that |
| Lists.FilterContents | src/vw/InterestPoint/Detector.h:283-292 | the threshold loop keeps every copy of each point its test accepts and none of the rejected ones |
| Lists.FilterAppend | src/vw/InterestPoint/Detector.h:283-292 | the threshold loop preserves order: survivors of an earlier part of the list stay ahead of later survivors |
| InterestOperator.HarrisScore | src/vw/InterestPoint/InterestOperator.h:76-85 | with trace = Ix²+Iy² and det = Ix²·Iy²−Ixy²: for k < 0 the score times (trace + 1e-6) is det (Noble); for k ≥ 0 the score plus k·trace² is det (Harris), so it never exceeds det |
| InterestOperator.NobleSignFollowsDet | src/vw/InterestPoint/InterestOperator.h:79-81 | Noble's score has the sign of det: zero on a rank-one tensor, positive at a corner, negative at a saddle |
| InterestOperator.HarrisWithZeroKIsDet | src/vw/InterestPoint/InterestOperator.h:83-84 | the Harris measure with k = 0 is the determinant |
| InterestOperator.DefaultHarrisIsNoble | src/vw/InterestPoint/InterestOperator.h:48-131 | the default Harris operator has k = −1, so it scores with Noble's measure; its threshold is 1e-5, not the unused class constant 0.03; the default LoG threshold is 0.03 |
| InterestOperator.HarrisThresholdStrict | src/vw/InterestPoint/InterestOperator.h:96-99 | Harris accepts a point iff its interest exceeds the threshold strictly; a point exactly at the threshold is rejected |
| InterestOperator.LogResponseLinear | src/vw/InterestPoint/InterestOperator.h:133-143 | the LoG response is scale × Laplacian, so scaling the scale by a scales every pixel's response by a |
| InterestOperator.LogThresholdOnMagnitude | src/vw/InterestPoint/InterestOperator.h:145-148 | LoG accepts a point iff its interest is above the threshold or below its negation, rejects a point whose magnitude equals the threshold, and so never changes its decision when the interest is negated |
| InterestOperator.PolarityConsistent | src/vw/InterestPoint/InterestOperator.h:96-152 | an operator searches for minima as well as maxima (LoG's IP_MINMAX, not Harris's IP_MAX) exactly when its threshold accepts both polarities of every point |
| Orientation.HalfWidth | src/vw/InterestPoint/Detector.h:135-144 | for a non-negative sigma ratio the half width is 5·ratio rounded half up: non-negative and within half a pixel of 5·ratio |
| Orientation.OrientationWindow | src/vw/InterestPoint/Detector.h:144-147 | the window's side is 2·HalfWidth(sigma ratio)+1 and it is centred on (i0, j0), so left = i0 − h and top = j0 − h |
| Orientation.InsideIffCentreInRange | src/vw/InterestPoint/Detector.h:145-150 | the strict bounds test passes iff h ≤ i0 < cols − h − 1 and h ≤ j0 < rows − h − 1, so the far column and row never fit |
| Orientation.ModeToAngle | src/vw/InterestPoint/Detector.h:169-173 | mode m becomes m·(2π/36) − π, which lies in [−π, π) for 0 ≤ m < 36 and falls back into bin m of the 36-bin histogram |
| Orientation.GetOrientation | src/vw/InterestPoint/Detector.h:126-177 | the result is empty when the window is not strictly inside the plane (the vector is cleared first); otherwise it holds one angle per histogram mode of that window |
| Orientation.GetOrientationAngles | src/vw/InterestPoint/Detector.h:168-173 | angle m lies in the bin of mode m, in mode order, and in [−π, π) whenever that mode is a valid bin |
| Culling.SortedMeansNoInversion | src/vw/InterestPoint/Detector.h:242-243 | non-increasing interest is exactly "no later point compares Less than an earlier one" under the point comparator |
| Culling.Insert | src/vw/InterestPoint/Detector.h:243 | inserting into a sorted list keeps it sorted, adds one element, and adds nothing but the inserted point |
| Culling.InsertAddsOne | src/vw/InterestPoint/Detector.h:243 | insertion adds exactly one copy of the point and loses nothing |
| Culling.SortByInterest | src/vw/InterestPoint/Detector.h:243 | the sorted list has the input's length and non-increasing interest from front to back |
| Culling.SortPermutes | src/vw/InterestPoint/Detector.h:243 | the sort is a permutation of its input |
| Culling.InsertStable | src/vw/InterestPoint/Detector.h:243 | an inserted point goes ahead of every point with the same interest, and the others keep their order |
| Culling.SortStable | src/vw/InterestPoint/Detector.h:243 | the sort is stable: points of equal interest keep their input order, as `std::list::sort` guarantees |
| Culling.Cull | src/vw/InterestPoint/Detector.h:242-245 | the cull has length max_points when 0 < max_points < n, and n otherwise, including every max_points ≤ 0 |
| Culling.CullKeepsBest | src/vw/InterestPoint/Detector.h:242-245 | the cull is sorted by non-increasing interest and drawn from the input; it is a permutation of the input when not truncating; every kept point is at least as interesting as every dropped one |
| Culling.TruncationKeepsBest | src/vw/InterestPoint/Detector.h:244-245 | cutting a sorted list after m points drops exactly the tail, and nothing in the tail is more interesting than anything in the head |
| Culling.InsertMapCommutes | src/vw/InterestPoint/Detector.h:243 | insertion commutes with any per-point change that keeps interest |
| Culling.SortMapCommutes | src/vw/InterestPoint/Detector.h:243 | the sort commutes with any per-point change that keeps interest, so its order depends on interest alone |
| Culling.CullMapCommutes | src/vw/InterestPoint/Detector.h:242-245 | which points the cull keeps, and in what order, depends on interest alone: it commutes with any interest-preserving change |
| Detector.SplitPoint | src/vw/InterestPoint/Detector.h:305-315 | a point with no angles is left as it is; otherwise it becomes exactly one point per angle |
| Detector.SplitPointReorients | src/vw/InterestPoint/Detector.h:307-314 | the split carries the angles o₁..oₙ₋₁ in order and then o₀ on the original, which comes last; every point in it differs from the original at most in orientation |
| Detector.AssignOrientations | src/vw/InterestPoint/Detector.h:295-316 | orientation assignment yields Σ max(1, nᵢ) points, where nᵢ is point i's angle count |
| Detector.AssignOrientationsOnlyReorients | src/vw/InterestPoint/Detector.h:307-314 | every produced point is an input point with at most a different orientation |
| Detector.AssignOrientationsAppend | src/vw/InterestPoint/Detector.h:305-315 | points are split one at a time and in place: the assignment of a concatenation is the concatenation of the assignments |
| Detector.AssignOrientationsInPlace | src/vw/InterestPoint/Detector.h:295-316 | the in-place iterator loop, which inserts the clones before the original and never revisits them, produces exactly the reference assignment and makes one orientation estimate per input point |
| Detector.VisitPoint | src/vw/InterestPoint/Detector.h:306-314 | one visit of the iterator turns the list for the first e points into the list for the first e + 1 points and steps past the split |
| Detector.SpliceClones | src/vw/InterestPoint/Detector.h:307-314 | overwriting the orientation with the first angle, then inserting one clone per further angle before the original, yields the clones in angle order followed by the re-oriented original |
| Detector.EraseRejected | src/vw/InterestPoint/Detector.h:283-292 | the erase-or-step loop leaves exactly the points the test accepts, in their original relative order |
| Detector.ProcessImage | src/vw/InterestPoint/Detector.h:197-259 | every returned point passes the operator's threshold; the detector returns one point per orientation of each culled candidate; at most max_points candidates survive the cull when max_points is positive |
| Detector.CulledCandidatesAreBest | src/vw/InterestPoint/Detector.h:230-247 | the culled candidates are survivors of the threshold in non-increasing interest, all of them when the limit does not bite, and no dropped survivor is more interesting than a kept one |
| Detector.CandidatesPassThreshold | src/vw/InterestPoint/Detector.h:230-247 | every culled candidate passes the operator's threshold |
| Detector.DefaultLimitBoundsCandidates | src/vw/InterestPoint/Detector.h:185-193 | with the constructors' default max_points of 1000, at most 1000 candidates survive the cull |
| Detector.OrientedKeepThreshold | src/vw/InterestPoint/Detector.h:249-255 | orientation assignment never changes interest, so everything it returns is still on the accepted side of the threshold |
| Tiling.Offset | src/vw/InterestPoint/Detector.h:101-106 | shifting adds dx to x and ix and dy to y and iy, so the sub-pixel remainders are kept; scale, orientation, interest and descriptor are unchanged |
| Tiling.OffsetRoundTrip | src/vw/InterestPoint/Detector.h:101-106 | shifting back by the opposite amount restores the point |
| Tiling.OffsetCompose | src/vw/InterestPoint/Detector.h:101-106 | two shifts add up |
| Tiling.TilePoints | src/vw/InterestPoint/Detector.h:100-106 | a tile contributes exactly the points the detector found in the cropped tile, in order, each moved by the tile's minimum corner |
| Tiling.MergeTilesAppend | src/vw/InterestPoint/Detector.h:97-108 | tiles are merged in tile order with no re-sorting: the merge of two runs of tiles is the first run's points followed by the second's |
| Tiling.TileSlice | src/vw/InterestPoint/Detector.h:97-108 | tile i's shifted points form one contiguous slice of the result, right after the points of tiles 0..i−1 |
| Tiling.MergeTilesLoop | src/vw/InterestPoint/Detector.h:96-108 | the shift-and-splice loop over the boxes produces exactly the tile-ordered merge |
| Tiling.MergeTilesCount | src/vw/InterestPoint/Detector.h:107 | splicing neither loses nor adds points: the merge holds the sum of the per-tile counts |
| Tiling.Detect | src/vw/InterestPoint/Detector.h:75-114 | a zero maximum dimension returns the whole-image result unchanged; any other value returns the per-tile results of the block partition, concatenated in block order, and as many points as those runs produce |
| Tiling.ThresholdCommutesWithOffset | src/vw/InterestPoint/Detector.h:283-292 | thresholding and shifting commute, so running the threshold on a tile before the shift gives the same points as running it after |
| Tiling.CullCommutesWithOffset | src/vw/InterestPoint/Detector.h:242-245 | the cull commutes with the tile shift |
| ScaledDetector.DefaultScaledConfig | src/vw/InterestPoint/Detector.h:360-373 | the short constructors swap the defaults, which still yields 3 scales and 3 octaves |
| ScaledDetector.PlaneOrientationsWindow | src/vw/InterestPoint/Detector.h:549-552 | for the plane k the point's scale selects, with h the half width for sigma[k]/sigma[1]: a point gets orientations only if its rounded location satisfies h ≤ i0 < cols − h − 1 and h ≤ j0 < rows − h − 1 of plane k, and then it gets one per mode of the window of side 2h+1 centred there, at that ratio |
| ScaledDetector.ReferencePlaneOrientations | src/vw/InterestPoint/Detector.h:549-552 | on a plane whose sigma equals the reference sigma[1], the orientations are those the single-scale detector computes for that plane with the base-scale window |
| ScaledDetector.Rescale | src/vw/InterestPoint/Detector.h:467-473 | x and y are multiplied by the base scale; ix and iy are re-rounded from the new x and y, so for a non-negative location each lies within half a pixel of it; scale, orientation, interest and descriptor are kept |
| ScaledDetector.OctavePointsCount | src/vw/InterestPoint/Detector.h:451-476 | an octave contributes one point per orientation of each culled candidate, and at most max_points candidates when max_points is positive |
| ScaledDetector.OctaveCandidatesAreBest | src/vw/InterestPoint/Detector.h:440-455 | an octave's culled candidates are survivors of its threshold in non-increasing interest, all of them when the limit does not bite, and no dropped survivor is more interesting than a kept one |
| ScaledDetector.OctavePointsPassThreshold | src/vw/InterestPoint/Detector.h:516-528 | every point an octave contributes passes the threshold against the plane its scale selects |
| ScaledDetector.StagesKeepTest | src/vw/InterestPoint/Detector.h:443-473 | a test on interest and scale that the threshold applies still holds after cull, orientation assignment and rescaling |
| ScaledDetector.OctavePointsRounded | src/vw/InterestPoint/Detector.h:467-473 | every point an octave contributes has ix, iy rounded from its rescaled x, y |
| ScaledDetector.OrientedKeepTest | src/vw/InterestPoint/Detector.h:548-561 | the scaled orientation assignment keeps interest and scale, so every point it returns passes a test on those two fields that each input passed |
| ScaledDetector.PlaneThresholdIsPlaneFree | src/vw/InterestPoint/Detector.h:516-528 | both operators ignore the plane data, so the per-plane threshold keeps the same points as a single-plane threshold |
| ScaledDetector.OctaveLoop | src/vw/InterestPoint/Detector.h:397-484 | the loop returns the octaves' points concatenated octave by octave; it advances the pyramid octaves − 1 times, never after the last octave, and never for a non-positive count |
| ScaledDetector.AllOctavesOnGrid | src/vw/InterestPoint/Detector.h:476 | appending octave results keeps the property that every point's integer location is rounded from its sub-pixel one |
| ScaledDetector.AllOctavesRounded | src/vw/InterestPoint/Detector.h:467-476 | every point the multi-octave detector returns has ix, iy rounded from its final x, y |
| ScaledDetector.ProcessScaled | src/vw/InterestPoint/Detector.h:383-487 | the detector builds the first octave from the image with the configured scale count, returns the octave-major concatenation of the per-octave stages, and advances the pyramid octaves − 1 times |

## Left out

- Pixel numerics are left out: gradients, separable convolution, Gaussian kernels, the Laplacian filter, edge extension, `pixel_cast` and `channel_cast_rescale`. The operators receive per-pixel derivative data as an input.
- `find_peaks`, `fit_peak`, `ImageOctave` construction and `build_next`, `plane_index_to_scale`, `scale_to_plane_index`, `image_blocks`, image cropping and `BBox::contains` are external. They are parameters whose behaviour is arbitrary.
- The orientation histogram is left out. This covers `weighted_histogram`, `smooth_weighted_histogram` and `find_weighted_histogram_mode`. Its modes arrive as a sequence of bin indices from a parameter.
- `get_support` (resampling) and `KeypointErrorMetric` (a floating-point vector norm) are numeric geometry outside the pipeline.
- `write_images` is left out because it is file output. So are `vw_out` and `Timer`, because they are logging.
- Floating-point rounding of `float`/`double` is not modelled: values are exact reals.
- Overflow of the `int` conversions is not modelled: an `(int)` of an out-of-range value is undefined in C++.
- The class constants `DEFAULT_INTEREST_THRESHOLD` are not used by the operators. Only the constructor defaults are modelled.
- Concurrency: none exists in the source.
- ScaledDetector.ProcessScaled: requires every processed octave to be well formed, with at least two planes, one sigma per plane, a non-zero `sigma[1]` and a scale-to-plane lookup that lands on a plane for every scale. This is an assumption about the pyramid `ImageOctave` builds, which is not part of this model. It is not a guard against undefined behaviour. The source needs less: it reads `sigma[1]`, the lookup and the plane data only for points that reach threshold or orientation (Detector.h:522, 549-552), so an octave that breaks the assumption but has no such points runs without fault. The contract states nothing for such octaves.
- Culling.SortByInterest: its own contract states length and order only. That the sort is a permutation and that it is stable are stated by `Culling.SortPermutes` and `Culling.SortStable`. They are kept out of the function's contract because a multiset clause there makes every proof that unfolds the sort much more expensive.
- The return value of `threshold` and `assign_orientations` is left out, in both detectors. They are declared `int` but end without a `return` statement (Detector.h:283-292, 295-316, 516-528, 531-562). In C++, flowing off the end of a non-void function is undefined behaviour. Every caller discards the value, so the model treats these stages as returning nothing, which is the evident intent.
- ScaledDetector.OctaveLoop: states the octave-major concatenation through the recursive reference `AllOctaves` (each octave appended after the previous ones) and not as a separate lemma that the first m octaves' points are a prefix of the first n octaves' points.
- Orientation.GetOrientationAngles: promises angles in [−π, π) only for modes in 0..35, because the mode finder is external and its range is not stated in the modelled code.

=== FILE: casts.dfy ===
/** The C++ numeric conversions the detector relies on, written out over unbounded reals. */
module Casts {

  /** `(int)r`: conversion that truncates toward zero (not a floor for negative values). */
  function TruncToInt(r: real): (n: int)
    ensures 0.0 <= r ==> n as real <= r < n as real + 1.0
    ensures r < 0.0 ==> n as real - 1.0 < r <= n as real
  {
    if r >= 0.0 then r.Floor else -((-r).Floor)
  }

  /** `(int)(v + 0.5)`, the idiom the detector uses to round a coordinate to a pixel. It rounds
      half up for v >= -0.5; below that, truncation toward zero pulls the result up by one. */
  function RoundToPixel(v: real): (n: int)
    ensures -0.5 <= v ==> n as real - 0.5 <= v < n as real + 0.5
    ensures v < -0.5 ==> n as real - 1.5 < v <= n as real - 0.5
  {
    TruncToInt(v + 0.5)
  }
}

=== FILE: cull.dfy ===
/** The cull stage: sort by descending interest (the list's stable sort with the point comparator),
    then keep the `maxPoints` most interesting points; a non-positive limit keeps everything. */
module Culling {
  import opened Descriptor
  import opened Lists

  /** Non-increasing interest from front to back: no point is `Less` than one before it. */
  predicate SortedByInterest(s: seq<InterestPoint>) {
    forall i, j :: 0 <= i < j < |s| ==> s[j].interest <= s[i].interest
  }

  /** Sortedness in terms of the comparator the source sorts with. */
  lemma SortedMeansNoInversion(s: seq<InterestPoint>)
    ensures SortedByInterest(s) <==> forall i, j :: 0 <= i < j < |s| ==> !Less(s[j], s[i])
  {
  }

  /** Inserts `p` ahead of the first point that is not more interesting than it. */
  function Insert(p: InterestPoint, s: seq<InterestPoint>): (r: seq<InterestPoint>)
    requires SortedByInterest(s)
    ensures SortedByInterest(r)
    ensures |r| == |s| + 1
    ensures forall q :: q in r ==> q == p || q in s
  {
    if |s| == 0 || s[0].interest <= p.interest then [p] + s
    else
      var rest := Insert(p, s[1..]);
      assert forall q :: q in rest ==> q.interest <= s[0].interest;
      [s[0]] + rest
  }

  /** Insertion adds exactly one copy of `p` and loses nothing. */
  lemma {:induction false} InsertAddsOne(p: InterestPoint, s: seq<InterestPoint>)
    requires SortedByInterest(s)
    ensures multiset(Insert(p, s)) == multiset(s) + multiset{p}
    decreases |s|
  {
    if |s| > 0 && s[0].interest > p.interest {
      InsertAddsOne(p, s[1..]);
      assert s == [s[0]] + s[1..];
    }
  }

  /** Stable sort by descending interest: a list in non-increasing interest of the same length. */
  function SortByInterest(s: seq<InterestPoint>): (r: seq<InterestPoint>)
    ensures SortedByInterest(r)
    ensures |r| == |s|
  {
    if |s| == 0 then [] else Insert(s[0], SortByInterest(s[1..]))
  }

  /** The sort is a permutation of its input. */
  lemma {:induction false} SortPermutes(s: seq<InterestPoint>)
    ensures multiset(SortByInterest(s)) == multiset(s)
    decreases |s|
  {
    if |s| > 0 {
      SortPermutes(s[1..]);
      InsertAddsOne(s[0], SortByInterest(s[1..]));
      assert s == [s[0]] + s[1..];
    }
  }

  /** The test that selects the points tied at interest `v`. */
  function WithInterest(v: real): InterestPoint -> bool {
    (p: InterestPoint) => p.interest == v
  }

  /** Inserting `p` puts it ahead of every point with the same interest. */
  lemma {:induction false} InsertStable(p: InterestPoint, s: seq<InterestPoint>, v: real)
    requires SortedByInterest(s)
    ensures Filter(Insert(p, s), WithInterest(v)) ==
      if p.interest == v then [p] + Filter(s, WithInterest(v)) else Filter(s, WithInterest(v))
    decreases |s|
  {
    var keep := WithInterest(v);
    if |s| == 0 || s[0].interest <= p.interest {
      assert Insert(p, s) == [p] + s;
      FilterCons(p, s, keep);
    } else {
      var rest := Insert(p, s[1..]);
      assert Insert(p, s) == [s[0]] + rest;
      FilterCons(s[0], rest, keep);
      InsertStable(p, s[1..], v);
      assert s == [s[0]] + s[1..];
      FilterCons(s[0], s[1..], keep);
      if p.interest == v {
        assert !keep(s[0]);
      }
    }
  }

  /** The sort is stable: points of equal interest keep their input order. */
  lemma {:induction false} SortStable(s: seq<InterestPoint>, v: real)
    ensures Filter(SortByInterest(s), WithInterest(v)) == Filter(s, WithInterest(v))
    decreases |s|
  {
    if |s| > 0 {
      SortStable(s[1..], v);
      InsertStable(s[0], SortByInterest(s[1..]), v);
      assert s == [s[0]] + s[1..];
      FilterCons(s[0], s[1..], WithInterest(v));
    }
  }

  /** Is the list long enough for the limit to apply? */
  predicate Truncates(n: int, maxPoints: int) {
    0 < maxPoints < n
  }

  /** The cull block: sort, then truncate to `maxPoints` when it is positive and smaller than the
      count. */
  function Cull(s: seq<InterestPoint>, maxPoints: int): (r: seq<InterestPoint>)
    ensures |r| == if Truncates(|s|, maxPoints) then maxPoints else |s|
  {
    var t := SortByInterest(s);
    if Truncates(|s|, maxPoints) then t[..maxPoints] else t
  }

  /** The cull result is sorted, is drawn from the input (all of it when no truncation happens),
      and every point it keeps is at least as interesting as every point it drops. */
  lemma CullKeepsBest(s: seq<InterestPoint>, maxPoints: int)
    ensures SortedByInterest(Cull(s, maxPoints))
    ensures multiset(Cull(s, maxPoints)) <= multiset(s)
    ensures !Truncates(|s|, maxPoints) ==> multiset(Cull(s, maxPoints)) == multiset(s)
    ensures forall a, b :: a in Cull(s, maxPoints) && b in multiset(s) - multiset(Cull(s, maxPoints)) ==> b.interest <= a.interest
  {
    var t := SortByInterest(s);
    SortPermutes(s);
    if Truncates(|s|, maxPoints) {
      TruncationKeepsBest(t, maxPoints);
    }
  }

  /** Cutting a sorted list leaves nothing in the tail more interesting than anything in the head. */
  lemma TruncationKeepsBest(t: seq<InterestPoint>, m: nat)
    requires SortedByInterest(t)
    requires m <= |t|
    ensures multiset(t[..m]) <= multiset(t)
    ensures multiset(t) - multiset(t[..m]) == multiset(t[m..])
    ensures forall a, b :: a in t[..m] && b in multiset(t) - multiset(t[..m]) ==> b.interest <= a.interest
  {
    assert t == t[..m] + t[m..];
    assert multiset(t) == multiset(t[..m]) + multiset(t[m..]);
    forall a, b | a in t[..m] && b in multiset(t[m..])
      ensures b.interest <= a.interest
    {
      var i :| 0 <= i < m && t[i] == a;
      assert b in t[m..];
      var j :| m <= j < |t| && t[j] == b;
    }
  }

  /** Applying an interest-preserving change to every point. */
  function MapPoints(s: seq<InterestPoint>, f: InterestPoint -> InterestPoint): (r: seq<InterestPoint>)
    ensures |r| == |s|
    ensures forall i :: 0 <= i < |s| ==> r[i] == f(s[i])
  {
    seq(|s|, i requires 0 <= i < |s| => f(s[i]))
  }

  /** An interest-preserving change keeps a sorted list sorted. */
  lemma MapKeepsSorted(s: seq<InterestPoint>, f: InterestPoint -> InterestPoint)
    requires SortedByInterest(s)
    requires forall q :: f(q).interest == q.interest
    ensures SortedByInterest(MapPoints(s, f))
  {
  }

  /** Inserting commutes with a change that keeps every point's interest. */
  lemma {:induction false} InsertMapCommutes(p: InterestPoint, s: seq<InterestPoint>, f: InterestPoint -> InterestPoint)
    requires SortedByInterest(s)
    requires forall q :: f(q).interest == q.interest
    ensures SortedByInterest(MapPoints(s, f))
    ensures Insert(f(p), MapPoints(s, f)) == MapPoints(Insert(p, s), f)
    decreases |s|
  {
    MapKeepsSorted(s, f);
    var ms := MapPoints(s, f);
    if |s| == 0 || s[0].interest <= p.interest {
      assert Insert(p, s) == [p] + s;
      assert Insert(f(p), ms) == [f(p)] + ms;
      assert MapPoints([p] + s, f) == [f(p)] + ms;
    } else {
      var rest := Insert(p, s[1..]);
      InsertMapCommutes(p, s[1..], f);
      assert ms[1..] == MapPoints(s[1..], f);
      assert Insert(p, s) == [s[0]] + rest;
      assert Insert(f(p), ms) == [f(s[0])] + Insert(f(p), ms[1..]);
      assert MapPoints([s[0]] + rest, f) == [f(s[0])] + MapPoints(rest, f);
    }
  }

  /** Sorting commutes with a change that keeps every point's interest. */
  lemma {:induction false} SortMapCommutes(s: seq<InterestPoint>, f: InterestPoint -> InterestPoint)
    requires forall q :: f(q).interest == q.interest
    ensures SortByInterest(MapPoints(s, f)) == MapPoints(SortByInterest(s), f)
    decreases |s|
  {
    if |s| > 0 {
      SortMapCommutes(s[1..], f);
      assert MapPoints(s, f)[1..] == MapPoints(s[1..], f);
      InsertMapCommutes(s[0], SortByInterest(s[1..]), f);
    }
  }

  /** Culling commutes with a change that keeps every point's interest: which points survive, and
      in what order, depends on interest alone. */
  lemma CullMapCommutes(s: seq<InterestPoint>, maxPoints: int, f: InterestPoint -> InterestPoint)
    requires forall q :: f(q).interest == q.interest
    ensures Cull(MapPoints(s, f), maxPoints) == MapPoints(Cull(s, maxPoints), f)
  {
    SortMapCommutes(s, f);
    if Truncates(|s|, maxPoints) {
      TakeMapCommutes(SortByInterest(s), maxPoints, f);
    }
  }

  /** Taking a prefix commutes with changing every point. */
  lemma TakeMapCommutes(t: seq<InterestPoint>, m: nat, f: InterestPoint -> InterestPoint)
    requires m <= |t|
    ensures MapPoints(t, f)[..m] == MapPoints(t[..m], f)
  {
  }
}

=== FILE: descriptor.dfy ===
/** The interest-point record, its coordinate view, its ranking comparator and bounding-box cropping. */
module Descriptor {
  import opened Results
  import opened Lists

  /** One detected feature. `x`, `y` are the sub-pixel (column, row) location, `ix`, `iy` the integer
      location, `scale` the detection scale, `orientation` in radians, `interest` the operator's score
      (larger is more interesting) and `descriptor` a slot filled by later stages. */
  datatype InterestPoint = InterestPoint(
    x: real, y: real,
    scale: real,
    ix: int, iy: int,
    orientation: real,
    interest: real,
    descriptor: seq<real>)

  /** Number of coordinates an interest point exposes through `Index`. */
  function Size(p: InterestPoint): nat { 2 }

  /** Coordinate access: index 0 is the column, index 1 the row; any other index is an argument error. */
  function Index(p: InterestPoint, index: int): (r: Result<real>)
    ensures r.Ok? <==> 0 <= index < Size(p)
    ensures r.Ok? ==> r.value == [p.x, p.y][index]
  {
    if index == 0 then Ok(p.x)
    else if index == 1 then Ok(p.y)
    else Err(ArgumentErr("Interest Point: Invalid index"))
  }

  /** The coordinate view identifies exactly the sub-pixel location: two points agree on every
      valid index iff they have the same (x, y). */
  lemma IndexViewIsLocation(p: InterestPoint, q: InterestPoint)
    ensures (forall i :: 0 <= i < Size(p) ==> Index(p, i) == Index(q, i)) <==> (p.x == q.x && p.y == q.y)
  {
    if forall i :: 0 <= i < Size(p) ==> Index(p, i) == Index(q, i) {
      assert Index(p, 0) == Index(q, 0);
      assert Index(p, 1) == Index(q, 1);
    }
  }

  /** The library's `operator<`: `a` sorts before `b` when it is strictly more interesting. */
  predicate Less(a: InterestPoint, b: InterestPoint) {
    b.interest < a.interest
  }

  /** `Less` is a strict weak order: irreflexive, transitive, and two points are incomparable
      exactly when their interests tie, so ties form equivalence classes. */
  lemma LessIsStrictWeakOrder(a: InterestPoint, b: InterestPoint, c: InterestPoint)
    ensures !Less(a, a)
    ensures Less(a, b) ==> !Less(b, a)
    ensures Less(a, b) && Less(b, c) ==> Less(a, c)
    ensures (!Less(a, b) && !Less(b, a)) <==> a.interest == b.interest
    ensures (!Less(a, b) && !Less(b, a) && !Less(b, c) && !Less(c, b)) ==> (!Less(a, c) && !Less(c, a))
  {
  }

  /** The per-point test `crop` applies: does the box contain the point's location? */
  function LocatedIn(contains: (real, real) -> bool): InterestPoint -> bool {
    (p: InterestPoint) => contains(p.x, p.y)
  }

  /** `crop`: the points whose location the box contains, in input order, copied unchanged.
      `contains` is the bounding box's containment test applied to the point's (x, y) after
      conversion to the box's coordinate type. */
  function Crop(points: seq<InterestPoint>, contains: (real, real) -> bool): (r: seq<InterestPoint>)
    ensures |r| <= |points|
    ensures forall p :: p in r <==> p in points && contains(p.x, p.y)
    ensures forall p :: multiset(r)[p] == if contains(p.x, p.y) then multiset(points)[p] else 0
  {
    FilterContents(points, LocatedIn(contains));
    Filter(points, LocatedIn(contains))
  }

  /** Cropping twice with the same box is cropping once. */
  lemma CropIdempotent(points: seq<InterestPoint>, contains: (real, real) -> bool)
    ensures Crop(Crop(points, contains), contains) == Crop(points, contains)
  {
    FilterIdempotent(points, LocatedIn(contains));
  }

  /** Cropping keeps input order: the crop of a concatenation is the concatenation of the crops. */
  lemma CropAppend(a: seq<InterestPoint>, b: seq<InterestPoint>, contains: (real, real) -> bool)
    ensures Crop(a + b, contains) == Crop(a, contains) + Crop(b, contains)
  {
    FilterAppend(a, b, LocatedIn(contains));
  }
}

=== FILE: detector.dfy ===
/** The single-scale detector (`InterestPointDetector`): interest plane, extrema, localisation,
    threshold, cull and orientation assignment, in that order. The stages shared with the
    multi-octave detector (threshold loop, orientation splitting) are defined here. */
module Detector {
  import opened Descriptor
  import opened Lists
  import opened ImageData
  import opened InterestOperator
  import opened Orientation
  import opened Casts
  import opened Culling

  /** The orientations of a list of points, in list order. */
  function Orientations(s: seq<InterestPoint>): (r: seq<real>)
    ensures |r| == |s|
  {
    seq(|s|, i requires 0 <= i < |s| => s[i].orientation)
  }

  /** A point with its orientation cleared: two points are equal here iff they differ at most in orientation. */
  function Unoriented(p: InterestPoint): InterestPoint {
    p.(orientation := 0.0)
  }

  /** What orientation assignment leaves in place of one point `p` whose histogram modes give the
      angles `os`: `p` itself when there are none; otherwise clones carrying os[1], ..., os[n-1], in that
      order, followed by `p` re-oriented to os[0]. Every angle is used once and nothing but the
      orientation changes. */
  function SplitPoint(p: InterestPoint, os: seq<real>): (r: seq<InterestPoint>)
    ensures |r| == if |os| == 0 then 1 else |os|
    ensures |os| == 0 ==> r == [p]
  {
    if |os| == 0 then [p]
    else seq(|os| - 1, j requires 0 <= j < |os| - 1 => p.(orientation := os[j + 1])) + [p.(orientation := os[0])]
  }

  /** The split ends with `p` re-oriented to the first angle, after clones carrying the other
      angles in their order; it changes nothing but orientation and uses every angle exactly once. */
  lemma SplitPointReorients(p: InterestPoint, os: seq<real>)
    ensures |os| > 0 ==> SplitPoint(p, os)[|os| - 1] == p.(orientation := os[0])
    ensures |os| > 0 ==> Orientations(SplitPoint(p, os)) == os[1..] + [os[0]]
    ensures forall q :: q in SplitPoint(p, os) ==> Unoriented(q) == Unoriented(p)
    ensures |os| > 0 ==> multiset(Orientations(SplitPoint(p, os))) == multiset(os)
  {
    if |os| > 0 {
      assert Orientations(SplitPoint(p, os)) == os[1..] + [os[0]];
      assert os == [os[0]] + os[1..];
    }
  }

  /** How many points orientation assignment produces: each point counts once per angle, and
      once if it has none. */
  function SplitCount(ps: seq<InterestPoint>, orient: InterestPoint -> seq<real>): nat {
    if |ps| == 0 then 0
    else (if |orient(ps[0])| == 0 then 1 else |orient(ps[0])|) + SplitCount(ps[1..], orient)
  }

  /** `assign_orientations`, as a reference: every point replaced by its split, in list order. */
  function AssignOrientations(ps: seq<InterestPoint>, orient: InterestPoint -> seq<real>): (r: seq<InterestPoint>)
    ensures |r| == SplitCount(ps, orient)
  {
    if |ps| == 0 then []
    else SplitPoint(ps[0], orient(ps[0])) + AssignOrientations(ps[1..], orient)
  }

  /** Orientation assignment invents no points: each point it produces is an input point with, at
      most, another orientation. */
  lemma {:induction false} AssignOrientationsOnlyReorients(ps: seq<InterestPoint>, orient: InterestPoint -> seq<real>)
    ensures forall q :: q in AssignOrientations(ps, orient) ==> Unoriented(q) in MapPoints(ps, Unoriented)
    decreases |ps|
  {
    if |ps| > 0 {
      AssignOrientationsOnlyReorients(ps[1..], orient);
      assert MapPoints(ps[1..], Unoriented) == MapPoints(ps, Unoriented)[1..];
      assert Unoriented(ps[0]) == MapPoints(ps, Unoriented)[0];
    }
  }

  /** Points are split one at a time and in place: assignment over a concatenation is the
      concatenation of the assignments. */
  lemma {:induction false} AssignOrientationsAppend(a: seq<InterestPoint>, b: seq<InterestPoint>, orient: InterestPoint -> seq<real>)
    ensures AssignOrientations(a + b, orient) == AssignOrientations(a, orient) + AssignOrientations(b, orient)
    decreases |a|
  {
    if |a| == 0 {
      assert a + b == b;
    } else {
      assert (a + b)[1..] == a[1..] + b;
      AssignOrientationsAppend(a[1..], b, orient);
    }
  }

  /** `assign_orientations` as the source runs it on a linked list: the iterator visits each
      original point once, overwrites its orientation with the first angle and inserts one clone
      per further angle just before it, so clones are never visited. It returns the list and the
      number of orientation estimates made, which is the number of input points. */
  method AssignOrientationsInPlace(ps: seq<InterestPoint>, orient: InterestPoint -> seq<real>)
    returns (points: seq<InterestPoint>, estimates: nat)
    ensures points == AssignOrientations(ps, orient)
    ensures estimates == |ps|
  {
    points := ps;
    estimates := 0;
    var i := 0;
    while i < |points|
      invariant estimates <= |ps|
      invariant points == AssignOrientations(ps[..estimates], orient) + ps[estimates..]
      invariant i == |AssignOrientations(ps[..estimates], orient)|
      decreases |ps| - estimates
    {
      points, i := VisitPoint(ps, estimates, orient, points, i);
      estimates := estimates + 1;
    }
    assert ps[..estimates] == ps;
  }

  /** One visit of the iterator: estimate the orientations of the original point it is on, split
      that point in place and step past it. */
  method VisitPoint(ps: seq<InterestPoint>, e: nat, orient: InterestPoint -> seq<real>,
                    points: seq<InterestPoint>, i: nat)
    returns (spliced: seq<InterestPoint>, next: nat)
    requires e < |ps|
    requires points == AssignOrientations(ps[..e], orient) + ps[e..]
    requires i == |AssignOrientations(ps[..e], orient)|
    ensures spliced == AssignOrientations(ps[..e + 1], orient) + ps[e + 1..]
    ensures next == |AssignOrientations(ps[..e + 1], orient)|
  {
    ghost var done := AssignOrientations(ps[..e], orient);
    SplitStepAt(ps, e, done, points);
    var os := orient(points[i]);
    spliced, next := points, i;
    if |os| > 0 {
      spliced, next := SpliceClones(points, i, os, done, ps[e], ps[e + 1..]);
    }
    SplitStepClose(ps, e, orient, done, spliced);
    next := next + 1;
  }

  /** The body of the loop over one point with at least one angle: overwrite its orientation with
      os[0], then insert a clone per further angle just before it, keeping the iterator on it. */
  method SpliceClones(points: seq<InterestPoint>, i: nat, os: seq<real>,
                      ghost done: seq<InterestPoint>, ghost p: InterestPoint, ghost rest: seq<InterestPoint>)
    returns (spliced: seq<InterestPoint>, at: nat)
    requires |os| > 0
    requires points == done + [p] + rest && i == |done|
    ensures spliced == done + SplitPoint(p, os) + rest
    ensures at == |done| + |os| - 1
  {
    spliced := points[i := points[i].(orientation := os[0])];
    at := i;
    assert os[..1] == [os[0]];
    assert spliced == done + SplitPoint(p, os[..1]) + rest;
    var j := 1;
    while j < |os|
      invariant 1 <= j <= |os|
      invariant spliced == done + SplitPoint(p, os[..j]) + rest
      invariant at == |done| + j - 1
    {
      InsertCloneStep(done, p, os, j, rest, spliced);
      spliced := spliced[..at] + [spliced[at].(orientation := os[j])] + spliced[at..];
      at := at + 1;
      j := j + 1;
    }
    assert os[..j] == os;
  }

  /** The outer loop of orientation assignment reaches the next original point. */
  lemma SplitStepAt(ps: seq<InterestPoint>, e: nat, done: seq<InterestPoint>, points: seq<InterestPoint>)
    requires e < |ps|
    requires points == done + ps[e..]
    ensures |done| < |points| && points[|done|] == ps[e]
    ensures points == done + [ps[e]] + ps[e + 1..]
  {
    assert ps[e..] == [ps[e]] + ps[e + 1..];
  }

  /** After the point at `e` is split in place, the list again has the shape the loop keeps: the
      assignment of the first e + 1 points, then the points not yet visited. */
  lemma SplitStepClose(ps: seq<InterestPoint>, e: nat, orient: InterestPoint -> seq<real>,
                       done: seq<InterestPoint>, points: seq<InterestPoint>)
    requires e < |ps|
    requires done == AssignOrientations(ps[..e], orient)
    requires points == done + SplitPoint(ps[e], orient(ps[e])) + ps[e + 1..]
    ensures points == AssignOrientations(ps[..e + 1], orient) + ps[e + 1..]
    ensures |AssignOrientations(ps[..e + 1], orient)| == |done| + |SplitPoint(ps[e], orient(ps[e]))|
  {
    SplitStepNext(ps, e, orient);
  }

  /** The reference appends that point's split next. */
  lemma SplitStepNext(ps: seq<InterestPoint>, e: nat, orient: InterestPoint -> seq<real>)
    requires e < |ps|
    ensures AssignOrientations(ps[..e + 1], orient) ==
      AssignOrientations(ps[..e], orient) + SplitPoint(ps[e], orient(ps[e]))
  {
    assert ps[..e + 1] == ps[..e] + [ps[e]];
    AssignOrientationsAppend(ps[..e], [ps[e]], orient);
    AssignOrientationsSingle(ps[e], orient);
  }

  /** A single point's assignment is its split. */
  lemma AssignOrientationsSingle(p: InterestPoint, orient: InterestPoint -> seq<real>)
    ensures AssignOrientations([p], orient) == SplitPoint(p, orient(p))
  {
    assert [p][1..] == [];
  }

  /** Inserting the clone for angle os[j] just before the original extends the split by one angle. */
  lemma InsertCloneStep(done: seq<InterestPoint>, p: InterestPoint, os: seq<real>, j: nat,
                        rest: seq<InterestPoint>, points: seq<InterestPoint>)
    requires 1 <= j < |os|
    requires points == done + SplitPoint(p, os[..j]) + rest
    ensures var i := |done| + j - 1;
      && i < |points| && points[i] == p.(orientation := os[0])
      && points[..i] + [points[i].(orientation := os[j])] + points[i..] == done + SplitPoint(p, os[..j + 1]) + rest
  {
    var before := SplitPoint(p, os[..j]);
    var after := SplitPoint(p, os[..j + 1]);
    assert after == before[..j - 1] + [p.(orientation := os[j])] + [before[j - 1]];
  }

  /** The threshold stage as the source runs it on a linked list: erase each rejected point,
      step past each accepted one. The survivors are the filter of the input, in order. */
  method EraseRejected(ps: seq<InterestPoint>, keep: InterestPoint -> bool) returns (points: seq<InterestPoint>)
    ensures points == Filter(ps, keep)
  {
    points := ps;
    var pos := 0;
    ghost var seen := 0;
    while pos < |points|
      invariant seen <= |ps|
      invariant points == Filter(ps[..seen], keep) + ps[seen..]
      invariant pos == |Filter(ps[..seen], keep)|
      decreases |ps| - seen
    {
      EraseStep(ps, seen, keep, points);
      if !keep(points[pos]) {
        points := points[..pos] + points[pos + 1..];
      } else {
        pos := pos + 1;
      }
      seen := seen + 1;
    }
    assert ps[..seen] == ps;
  }

  /** One iteration of the threshold loop keeps its invariant, whether it erases or steps. */
  lemma EraseStep(ps: seq<InterestPoint>, seen: nat, keep: InterestPoint -> bool, points: seq<InterestPoint>)
    requires seen < |ps|
    requires points == Filter(ps[..seen], keep) + ps[seen..]
    ensures var pos := |Filter(ps[..seen], keep)|;
      && pos < |points| && points[pos] == ps[seen]
      && (!keep(ps[seen]) ==> points[..pos] + points[pos + 1..] == Filter(ps[..seen + 1], keep) + ps[seen + 1..]
                              && pos == |Filter(ps[..seen + 1], keep)|)
      && (keep(ps[seen]) ==> points == Filter(ps[..seen + 1], keep) + ps[seen + 1..]
                             && pos + 1 == |Filter(ps[..seen + 1], keep)|)
  {
    var kept := Filter(ps[..seen], keep);
    var x := ps[seen];
    var rest := ps[seen + 1..];
    assert ps[..seen + 1] == ps[..seen] + [x];
    FilterSnoc(ps[..seen], x, keep);
    assert ps[seen..] == [x] + rest;
    assert points == kept + [x] + rest;
    if !keep(x) {
      assert points[..|kept|] == kept;
      assert points[|kept| + 1..] == rest;
    }
  }

  /** Detector configuration; a non-positive `maxPoints` disables culling. */
  datatype DetectorConfig = DetectorConfig(op: Operator, maxPoints: int)

  /** The limit both constructors use when none is given. */
  const DefaultMaxPoints: int := 1000

  /** What the single-scale detector delegates: the operator's derivative data for a plane at a
      scale, the extremum finder, the sub-pixel localiser and the orientation histogram's modes for
      a window of a plane at a sigma ratio. */
  datatype Collaborators = Collaborators(
    derive: (Image, real) -> seq<PixelDerivatives>,
    findPeaks: (Image, PeakType) -> seq<InterestPoint>,
    fitPeak: (Image, InterestPoint) -> InterestPoint,
    modes: (Image, Window, real) -> seq<int>)

  /** The interest image the operator computes for `source` at `scale`. */
  function InterestImage(op: Operator, derive: (Image, real) -> seq<PixelDerivatives>, source: Image, scale: real): Image {
    Image(source.cols, source.rows, InterestPlane(op, derive(source, scale), scale))
  }

  /** The test the threshold stage applies, against the given interest data. */
  function Accepted(op: Operator, data: Image): InterestPoint -> bool {
    (p: InterestPoint) => Threshold(op, p, data)
  }

  /** The angles `get_orientation` yields for a point, at its rounded location in `plane`. */
  function PointOrientations(modes: (Image, Window, real) -> seq<int>, plane: Image, sigmaRatio: real): InterestPoint -> seq<real> {
    (p: InterestPoint) =>
      GetOrientation(plane, RoundToPixel(p.x), RoundToPixel(p.y), sigmaRatio, modes)
  }

  /** The extrema of the interest image after sub-pixel localisation: the localiser refines each
      point and never removes one. */
  function Localized(cfg: DetectorConfig, c: Collaborators, image: Image): seq<InterestPoint> {
    var interest := InterestImage(cfg.op, c.derive, image, 1.0);
    var raw := c.findPeaks(interest, PeakTypeOf(cfg.op));
    MapPoints(raw, (p: InterestPoint) => c.fitPeak(interest, p))
  }

  /** The localised points that pass the operator's threshold, in order. */
  function Survivors(cfg: DetectorConfig, c: Collaborators, image: Image): seq<InterestPoint> {
    Filter(Localized(cfg, c, image), Accepted(cfg.op, InterestImage(cfg.op, c.derive, image, 1.0)))
  }

  /** The points the single-scale stages keep and cull, before orientation assignment. */
  function CulledCandidates(cfg: DetectorConfig, c: Collaborators, image: Image): seq<InterestPoint> {
    Cull(Survivors(cfg, c, image), cfg.maxPoints)
  }

  /** The detector keeps the most interesting survivors of the threshold: its candidates are drawn
      from them in non-increasing interest, all of them when the limit does not bite, and no
      survivor it drops is more interesting than one it keeps. */
  lemma CulledCandidatesAreBest(cfg: DetectorConfig, c: Collaborators, image: Image)
    ensures SortedByInterest(CulledCandidates(cfg, c, image))
    ensures multiset(CulledCandidates(cfg, c, image)) <= multiset(Survivors(cfg, c, image))
    ensures !Truncates(|Survivors(cfg, c, image)|, cfg.maxPoints) ==>
      multiset(CulledCandidates(cfg, c, image)) == multiset(Survivors(cfg, c, image))
    ensures forall a, b ::
      a in CulledCandidates(cfg, c, image) && b in multiset(Survivors(cfg, c, image)) - multiset(CulledCandidates(cfg, c, image)) ==>
        b.interest <= a.interest
  {
    CullKeepsBest(Survivors(cfg, c, image), cfg.maxPoints);
  }

  /** Every culled candidate passed the operator's threshold. */
  lemma CandidatesPassThreshold(cfg: DetectorConfig, c: Collaborators, image: Image)
    ensures forall q :: q in CulledCandidates(cfg, c, image) ==> Threshold(cfg.op, q, InterestImage(cfg.op, c.derive, image, 1.0))
  {
    var interest := InterestImage(cfg.op, c.derive, image, 1.0);
    FilterContents(Localized(cfg, c, image), Accepted(cfg.op, interest));
    CullKeepsBest(Survivors(cfg, c, image), cfg.maxPoints);
    forall q | q in CulledCandidates(cfg, c, image)
      ensures Threshold(cfg.op, q, interest)
    {
      assert q in multiset(CulledCandidates(cfg, c, image));
      assert q in Survivors(cfg, c, image);
    }
  }

  /** `process_image` of the single-scale detector. Every point it returns passed the threshold,
      and it returns one point per orientation of each culled candidate. */
  function ProcessImage(cfg: DetectorConfig, c: Collaborators, image: Image): (r: seq<InterestPoint>)
    ensures forall q :: q in r ==> Threshold(cfg.op, q, InterestImage(cfg.op, c.derive, image, 1.0))
    ensures |r| == SplitCount(CulledCandidates(cfg, c, image), PointOrientations(c.modes, image, 1.0))
    ensures 0 < cfg.maxPoints ==> |CulledCandidates(cfg, c, image)| <= cfg.maxPoints
  {
    var interest := InterestImage(cfg.op, c.derive, image, 1.0);
    CandidatesPassThreshold(cfg, c, image);
    OrientedKeepThreshold(CulledCandidates(cfg, c, image), PointOrientations(c.modes, image, 1.0), cfg.op, interest);
    AssignOrientations(CulledCandidates(cfg, c, image), PointOrientations(c.modes, image, 1.0))
  }

  /** Orientation assignment never changes interest, so it keeps every point on the accepted side
      of the threshold. */
  lemma OrientedKeepThreshold(ps: seq<InterestPoint>, orient: InterestPoint -> seq<real>, op: Operator, data: Image)
    requires forall p :: p in ps ==> Threshold(op, p, data)
    ensures forall q :: q in AssignOrientations(ps, orient) ==> Threshold(op, q, data)
  {
    AssignOrientationsOnlyReorients(ps, orient);
    forall q | q in AssignOrientations(ps, orient)
      ensures Threshold(op, q, data)
    {
      var i :| 0 <= i < |ps| && MapPoints(ps, Unoriented)[i] == Unoriented(q);
      assert Unoriented(ps[i]) == Unoriented(q);
      assert ps[i] in ps;
      assert ps[i].interest == q.interest;
    }
  }

  /** With the constructors' default limit, the cull never leaves more than 1000 candidates. */
  lemma DefaultLimitBoundsCandidates(op: Operator, c: Collaborators, image: Image)
    ensures |CulledCandidates(DetectorConfig(op, DefaultMaxPoints), c, image)| <= 1000
  {
  }
}

=== FILE: image_data.dfy ===
/** The image-level data the detectors pass between stages. Pixel contents are only ever read by
    the external collaborators (gradient filters, extremum finder, localiser, histogram). */
module ImageData {

  type NonNegReal = r: real | 0.0 <= r

  /** A single-channel floating-point plane of `cols` x `rows` pixels, stored row-major. */
  datatype Image = Image(cols: nat, rows: nat, pixels: seq<real>)

  /** The smoothed second-moment (Harris) matrix at one pixel: Ix², Iy² and Ix·Iy after Gaussian
      smoothing. The two diagonal entries are smoothed squares, hence never negative. */
  datatype StructureTensor = StructureTensor(ix2: NonNegReal, iy2: NonNegReal, ixy: real)

  /** What the interest operators read at one pixel: the structure tensor and the Laplacian. */
  datatype PixelDerivatives = PixelDerivatives(tensor: StructureTensor, laplacian: real)
}

=== FILE: interest_operator.dfy ===
/** The two interest operators: Harris (with Noble's variant) and Laplacian of Gaussian. Each is
    a per-pixel score, a threshold test on a detected point, and the kind of peaks to search for. */
module InterestOperator {
  import opened Descriptor
  import opened ImageData

  /** Operator configuration. A negative Harris `k` selects Noble's measure. */
  datatype Operator = Harris(threshold: real, k: real) | Log(threshold: real)

  /** Which extrema of the interest plane the extremum finder is asked for (IP_MAX, IP_MINMAX). */
  datatype PeakType = Maxima | MaximaAndMinima

  const HarrisDefaultThreshold: real := 0.00001
  const HarrisDefaultK: real := -1.0
  const LogDefaultThreshold: real := 0.03
  /** Keeps Noble's denominator away from zero on flat regions. */
  const NobleEpsilon: real := 0.000001

  /** The configurations the default constructors build. */
  const DefaultHarris: Operator := Harris(HarrisDefaultThreshold, HarrisDefaultK)
  const DefaultLog: Operator := Log(LogDefaultThreshold)

  function Abs(r: real): real { if r < 0.0 then -r else r }

  /** The peak-type trait of each operator. */
  function PeakTypeOf(op: Operator): PeakType {
    match op
    case Harris(_, _) => Maxima
    case Log(_) => MaximaAndMinima
  }

  /** The operator's `threshold(point, data)`. Both operators ignore the plane data they are handed. */
  predicate Threshold<D>(op: Operator, p: InterestPoint, data: D) {
    match op
    case Harris(t, _) => p.interest > t
    case Log(t) => Abs(p.interest) > t
  }

  function Trace(t: StructureTensor): real { t.ix2 + t.iy2 }

  function Det(t: StructureTensor): real { t.ix2 * t.iy2 - t.ixy * t.ixy }

  /** Cornerness at one pixel: Noble's det/(trace + eps) when k < 0, otherwise Harris's det - k·trace². */
  function HarrisScore(k: real, t: StructureTensor): (s: real)
    ensures k < 0.0 ==> s * (Trace(t) + NobleEpsilon) == Det(t)
    ensures 0.0 <= k ==> s + k * (Trace(t) * Trace(t)) == Det(t)
    ensures 0.0 <= k ==> s <= Det(t)
  {
    if k < 0.0 then Det(t) / (Trace(t) + NobleEpsilon)
    else Det(t) - k * (Trace(t) * Trace(t))
  }

  /** The interest value the operator assigns to one pixel when applied at `scale`. The scale
      enters Harris only through the smoothing that produced the tensor; LoG multiplies by it. */
  function PixelScore(op: Operator, d: PixelDerivatives, scale: real): real {
    match op
    case Harris(_, k) => HarrisScore(k, d.tensor)
    case Log(_) => scale * d.laplacian
  }

  /** The interest plane: the per-pixel score at every pixel, in the same order. */
  function InterestPlane(op: Operator, ds: seq<PixelDerivatives>, scale: real): (r: seq<real>)
    ensures |r| == |ds|
    ensures forall i :: 0 <= i < |ds| ==> r[i] == PixelScore(op, ds[i], scale)
  {
    seq(|ds|, i requires 0 <= i < |ds| => PixelScore(op, ds[i], scale))
  }

  /** A point with its interest negated (the opposite blob polarity). */
  function Negated(p: InterestPoint): InterestPoint {
    p.(interest := -p.interest)
  }

  /** Noble's score has the sign of the determinant: zero on an ideal straight edge (rank-one
      tensor), positive at a corner, negative at a saddle. */
  lemma NobleSignFollowsDet(k: real, t: StructureTensor)
    requires k < 0.0
    ensures Det(t) == 0.0 ==> HarrisScore(k, t) == 0.0
    ensures Det(t) > 0.0 ==> HarrisScore(k, t) > 0.0
    ensures Det(t) < 0.0 ==> HarrisScore(k, t) < 0.0
  {
    var den := Trace(t) + NobleEpsilon;
    ProductSign(HarrisScore(k, t), den);
  }

  /** Multiplying by a positive factor keeps the sign. */
  lemma ProductSign(s: real, den: real)
    requires den > 0.0
    ensures s * den > 0.0 <==> s > 0.0
    ensures s * den < 0.0 <==> s < 0.0
  {
  }

  /** The classic Harris measure with k = 0 is the determinant itself. */
  lemma HarrisWithZeroKIsDet(t: StructureTensor)
    ensures HarrisScore(0.0, t) == Det(t)
  {
  }

  /** The default Harris operator uses Noble's measure and its threshold is 1e-5, not the class
      constant 0.03 that the source declares and never uses. */
  lemma DefaultHarrisIsNoble(t: StructureTensor)
    ensures DefaultHarris.k < 0.0
    ensures PixelScore(DefaultHarris, PixelDerivatives(t, 0.0), 1.0) * (Trace(t) + NobleEpsilon) == Det(t)
    ensures DefaultHarris.threshold == 0.00001 && DefaultLog.threshold == 0.03
  {
  }

  /** Harris thresholding is strict: a point scoring exactly the threshold is dropped, anything above kept. */
  lemma HarrisThresholdStrict<D>(t: real, k: real, p: InterestPoint, data: D)
    ensures Threshold(Harris(t, k), p, data) <==> t < p.interest
    ensures p.interest == t ==> !Threshold(Harris(t, k), p, data)
  {
  }

  /** The LoG response is linear in the scale, pixel by pixel. */
  lemma LogResponseLinear(t: real, ds: seq<PixelDerivatives>, a: real, scale: real)
    ensures forall i :: 0 <= i < |ds| ==>
      InterestPlane(Log(t), ds, a * scale)[i] == a * InterestPlane(Log(t), ds, scale)[i]
  {
  }

  /** LoG thresholding is strict on the magnitude: a point is accepted iff its interest lies above
      the threshold or below its negation, a point whose magnitude equals the threshold is dropped,
      and negating a point's interest never changes the decision. */
  lemma LogThresholdOnMagnitude<D>(t: real, p: InterestPoint, data: D)
    ensures Threshold(Log(t), p, data) <==> (t < p.interest || p.interest < -t)
    ensures Abs(p.interest) == t ==> !Threshold(Log(t), p, data)
    ensures Threshold(Log(t), Negated(p), data) == Threshold(Log(t), p, data)
  {
  }

  /** Peak polarity and threshold agree: an operator searches minima as well as maxima exactly when
      its threshold accepts both polarities of every point. */
  lemma PolarityConsistent<D>(op: Operator, data: D)
    ensures PeakTypeOf(op) == MaximaAndMinima <==>
      (forall p :: Threshold(op, Negated(p), data) == Threshold(op, p, data))
  {
    if op.Harris? {
      var p := InterestPoint(0.0, 0.0, 0.0, 0, 0, 0.0, Abs(op.threshold) + 1.0, []);
      assert Threshold(op, p, data);
      assert !Threshold(op, Negated(p), data);
    }
  }
}

=== FILE: lists.dfy ===
/** Generic list stages shared by the detectors: order-preserving filtering. */
module Lists {

  /** The elements of `s` that satisfy `keep`, in their original relative order. */
  function Filter<T(==)>(s: seq<T>, keep: T -> bool): (r: seq<T>)
    ensures |r| <= |s|
    decreases |s|
  {
    if |s| == 0 then []
    else if keep(s[0]) then [s[0]] + Filter(s[1..], keep)
    else Filter(s[1..], keep)
  }

  /** Filter keeps every copy of a satisfying element and drops every copy of the others, so its
      result holds exactly the satisfying elements of the input. */
  lemma {:induction false} FilterContents<T(!new)>(s: seq<T>, keep: T -> bool)
    ensures forall x :: multiset(Filter(s, keep))[x] == if keep(x) then multiset(s)[x] else 0
    ensures forall x :: x in Filter(s, keep) <==> x in s && keep(x)
    decreases |s|
  {
    if |s| > 0 {
      FilterContents(s[1..], keep);
      assert s == [s[0]] + s[1..];
    }
  }

  /** Filtering distributes over concatenation: survivors of an earlier part stay ahead of later ones. */
  lemma {:induction false} FilterAppend<T(!new)>(a: seq<T>, b: seq<T>, keep: T -> bool)
    ensures Filter(a + b, keep) == Filter(a, keep) + Filter(b, keep)
    decreases |a|
  {
    if |a| == 0 {
      assert a + b == b;
    } else {
      assert (a + b)[1..] == a[1..] + b;
      FilterAppend(a[1..], b, keep);
    }
  }

  /** Filtering a list with a known first element. */
  lemma FilterCons<T(!new)>(x: T, s: seq<T>, keep: T -> bool)
    ensures Filter([x] + s, keep) == if keep(x) then [x] + Filter(s, keep) else Filter(s, keep)
  {
    assert ([x] + s)[1..] == s;
  }

  /** Filtering a list with a known last element. */
  lemma FilterSnoc<T(!new)>(s: seq<T>, x: T, keep: T -> bool)
    ensures Filter(s + [x], keep) == if keep(x) then Filter(s, keep) + [x] else Filter(s, keep)
  {
    FilterAppend(s, [x], keep);
    FilterCons(x, [], keep);
    assert [x] + [] == [x];
  }

  /** A list whose every element is kept passes through unchanged. */
  lemma {:induction false} FilterKeepsAll<T(!new)>(s: seq<T>, keep: T -> bool)
    requires forall x :: x in s ==> keep(x)
    ensures Filter(s, keep) == s
    decreases |s|
  {
    if |s| > 0 {
      FilterKeepsAll(s[1..], keep);
    }
  }

  /** Filtering twice with the same predicate is filtering once. */
  lemma FilterIdempotent<T(!new)>(s: seq<T>, keep: T -> bool)
    ensures Filter(Filter(s, keep), keep) == Filter(s, keep)
  {
    FilterContents(s, keep);
    FilterKeepsAll(Filter(s, keep), keep);
  }

  /** Filtering depends only on which elements the predicate accepts. */
  lemma {:induction false} FilterSameTest<T(!new)>(s: seq<T>, keep1: T -> bool, keep2: T -> bool)
    requires forall x :: keep1(x) == keep2(x)
    ensures Filter(s, keep1) == Filter(s, keep2)
    decreases |s|
  {
    if |s| > 0 {
      FilterSameTest(s[1..], keep1, keep2);
    }
  }
}

=== FILE: orientation.dfy ===
/** `get_orientation`: the analysis window around a point, its strict bounds test, and the
    conversion of histogram modes to angles. The histogram itself is external: its modes arrive
    as bin indices from the `modes` collaborator. */
module Orientation {
  import opened Casts
  import opened ImageData

  /** M_PI as the C library spells it. */
  const Pi: real := 3.14159265358979323846
  /** Number of orientation histogram bins over [-pi, pi). */
  const NumBins: int := 36
  /** Half width of the window at the base scale. */
  const BaseHalfWidth: int := 5

  /** A square window: its top-left pixel and side length. */
  datatype Window = Window(left: int, top: int, width: int)

  /** Width in radians of one histogram bin. */
  function BinWidth(): real { 2.0 * Pi / NumBins as real }

  /** Half width of the window for a plane whose sigma is `sigmaRatio` times the reference sigma;
      for non-negative ratios it is 5·ratio rounded half up. */
  function HalfWidth(sigmaRatio: real): (h: int)
    ensures 0.0 <= sigmaRatio ==> 0 <= h && h as real - 0.5 <= BaseHalfWidth as real * sigmaRatio < h as real + 0.5
  {
    TruncToInt(BaseHalfWidth as real * sigmaRatio + 0.5)
  }

  /** The window of odd side centred on pixel (i0, j0). */
  function OrientationWindow(i0: int, j0: int, sigmaRatio: real): (w: Window)
    ensures w.width % 2 == 1 && w.width / 2 == HalfWidth(sigmaRatio)
    ensures w.left + w.width / 2 == i0 && w.top + w.width / 2 == j0
  {
    var h := HalfWidth(sigmaRatio);
    Window(i0 - h, j0 - h, h * 2 + 1)
  }

  /** The bounds test, strict on the far side: the last column and row of the plane never fit. */
  predicate Inside(w: Window, cols: int, rows: int) {
    w.left >= 0 && w.top >= 0 && w.left + w.width < cols && w.top + w.width < rows
  }

  /** The angle a histogram mode stands for: the lower edge of bin `m` on [-pi, pi). */
  function ModeToAngle(m: int): (a: real)
    ensures 0 <= m < NumBins ==> -Pi <= a < Pi
    ensures BinOf(a) == m
  {
    m as real * BinWidth() - Pi
  }

  /** The bin into which a 36-bin histogram over [-pi, pi) puts angle `a`. */
  function BinOf(a: real): int {
    ((a + Pi) / BinWidth()).Floor
  }

  /** `get_orientation` for the point at pixel (i0, j0) of `plane`: no angle unless the window lies
      strictly inside the plane; otherwise one angle per mode the histogram of that window yields. */
  function GetOrientation(plane: Image, i0: int, j0: int, sigmaRatio: real,
                          modes: (Image, Window, real) -> seq<int>): (r: seq<real>)
    ensures !Inside(OrientationWindow(i0, j0, sigmaRatio), plane.cols, plane.rows) ==> r == []
    ensures Inside(OrientationWindow(i0, j0, sigmaRatio), plane.cols, plane.rows) ==>
      |r| == |modes(plane, OrientationWindow(i0, j0, sigmaRatio), sigmaRatio)|
  {
    var w := OrientationWindow(i0, j0, sigmaRatio);
    if Inside(w, plane.cols, plane.rows) then
      var ms := modes(plane, w, sigmaRatio);
      seq(|ms|, m requires 0 <= m < |ms| => ModeToAngle(ms[m]))
    else []
  }

  /** The angles `get_orientation` returns lie, in mode order, each in the bin of its mode, and
      in [-pi, pi) when the mode is a valid bin. */
  lemma GetOrientationAngles(plane: Image, i0: int, j0: int, sigmaRatio: real, modes: (Image, Window, real) -> seq<int>)
    ensures var r := GetOrientation(plane, i0, j0, sigmaRatio, modes);
      var ms := modes(plane, OrientationWindow(i0, j0, sigmaRatio), sigmaRatio);
      forall m :: 0 <= m < |r| ==> BinOf(r[m]) == ms[m]
    ensures var r := GetOrientation(plane, i0, j0, sigmaRatio, modes);
      var ms := modes(plane, OrientationWindow(i0, j0, sigmaRatio), sigmaRatio);
      forall m :: 0 <= m < |r| && 0 <= ms[m] < NumBins ==> -Pi <= r[m] < Pi
  {
  }

  /** The bounds test in terms of the centre: with half width h, orientations can be produced only
      for h <= i0 < cols - h - 1 and h <= j0 < rows - h - 1. */
  lemma InsideIffCentreInRange(i0: int, j0: int, sigmaRatio: real, cols: int, rows: int)
    ensures var h := HalfWidth(sigmaRatio);
      Inside(OrientationWindow(i0, j0, sigmaRatio), cols, rows) <==>
      (h <= i0 < cols - h - 1 && h <= j0 < rows - h - 1)
  {
  }
}

=== FILE: results.dfy ===
/** Error reporting for operations of the interest-point library that can fail. */
module Results {

  /** The library's error kinds; only invalid arguments arise in the modelled code. */
  datatype Error = ArgumentErr(message: string)

  /** Either a value or the error that a throwing operation would raise. */
  datatype Result<+T> = Ok(value: T) | Err(error: Error)
}

=== FILE: scaled_detector.dfy ===
/** The multi-octave detector (`ScaledInterestPointDetector`): the single-scale stages run on every
    plane of each octave of a scale-space pyramid, the survivors moved back to original-image
    coordinates and appended octave by octave. */
module ScaledDetector {
  import opened Descriptor
  import opened Lists
  import opened ImageData
  import opened InterestOperator
  import opened Orientation
  import opened Casts
  import opened Culling
  import opened Detector

  /** One pyramid level: its smoothed planes, the sigma of each plane, and the factor that maps the
      level's pixel coordinates to the original image. */
  datatype Octave = Octave(planes: seq<Image>, sigma: seq<real>, baseScale: real)

  /** Detector configuration: scales per octave, number of octaves, per-octave cull limit. */
  datatype ScaledConfig = ScaledConfig(op: Operator, scales: int, octaves: int, maxPoints: int)

  const DefaultScales: int := 3
  const DefaultOctaves: int := 3

  /** The two short constructors store the default octave count as the scale count and the default
      scale count as the octave count. Both defaults are 3, so the result is still the intended one. */
  function DefaultScaledConfig(op: Operator, maxPoints: int): (cfg: ScaledConfig)
    ensures cfg == ScaledConfig(op, DefaultScales, DefaultOctaves, maxPoints)
  {
    ScaledConfig(op, DefaultOctaves, DefaultScales, maxPoints)
  }

  /** What the multi-octave detector delegates: building the first octave from the image and the
      next from the current one, the scale of a plane and the plane of a scale, the operator's
      derivative data, the extremum finder and localiser over a whole octave, and the orientation
      histogram's modes. */
  datatype ScaledCollaborators = ScaledCollaborators(
    buildFirst: (Image, int) -> Octave,
    buildNext: Octave -> Octave,
    planeScale: (Octave, int) -> real,
    planeIndex: (Octave, real) -> int,
    derive: (Image, real) -> seq<PixelDerivatives>,
    findPeaks: (seq<Image>, Octave, PeakType) -> seq<InterestPoint>,
    fitPeak: (seq<Image>, Octave, InterestPoint) -> InterestPoint,
    modes: (Image, Window, real) -> seq<int>)

  /** What processing an octave needs: at least two planes, one sigma per plane, a non-zero
      reference sigma (plane 1) and a scale-to-plane lookup that lands on one of the planes. */
  ghost predicate Usable(c: ScaledCollaborators, o: Octave) {
    && 2 <= |o.planes| == |o.sigma|
    && o.sigma[1] != 0.0
    && forall s :: 0 <= c.planeIndex(o, s) < |o.planes|
  }

  /** The octave processed in iteration n: the first one advanced n times. */
  function OctaveAt(c: ScaledCollaborators, first: Octave, n: nat): Octave {
    if n == 0 then first else c.buildNext(OctaveAt(c, first, n - 1))
  }

  /** The interest image of every plane, each computed at that plane's scale. */
  function InterestImages(op: Operator, c: ScaledCollaborators, o: Octave): (r: seq<Image>)
    ensures |r| == |o.planes|
  {
    seq(|o.planes|, k requires 0 <= k < |o.planes| => InterestImage(op, c.derive, o.planes[k], c.planeScale(o, k)))
  }

  /** The scaled threshold test: the operator's test against the interest image of the plane the
      point's scale selects. */
  function PlaneAccepted(op: Operator, c: ScaledCollaborators, o: Octave): InterestPoint -> bool
    requires Usable(c, o)
  {
    (p: InterestPoint) => Threshold(op, p, InterestImages(op, c, o)[c.planeIndex(o, p.scale)])
  }

  /** The angles for a point: the window is scaled by the ratio of its plane's sigma to sigma[1]. */
  function PlaneOrientations(c: ScaledCollaborators, o: Octave): InterestPoint -> seq<real>
    requires Usable(c, o)
  {
    (p: InterestPoint) =>
      var k := c.planeIndex(o, p.scale);
      GetOrientation(o.planes[k], RoundToPixel(p.x), RoundToPixel(p.y), o.sigma[k] / o.sigma[1], c.modes)
  }

  /** The window of a point whose plane has the reference sigma is the base-scale window: on such a
      plane the multi-octave detector estimates orientations exactly as the single-scale one does. */
  lemma ReferencePlaneOrientations(c: ScaledCollaborators, o: Octave, p: InterestPoint)
    requires Usable(c, o)
    ensures var k := c.planeIndex(o, p.scale);
      o.sigma[k] == o.sigma[1] ==> PlaneOrientations(c, o)(p) == PointOrientations(c.modes, o.planes[k], 1.0)(p)
  {
    assert o.sigma[1] / o.sigma[1] == 1.0;
  }

  /** The window for a point is that of its plane k scaled by sigma[k]/sigma[1]: orientations can
      only come from a point whose rounded location is at least that scaled half width inside the
      plane, and then there is one per mode of the histogram over the scaled window. */
  lemma PlaneOrientationsWindow(c: ScaledCollaborators, o: Octave, p: InterestPoint)
    requires Usable(c, o)
    ensures var k := c.planeIndex(o, p.scale);
      var ratio := o.sigma[k] / o.sigma[1];
      var h := HalfWidth(ratio);
      var i0 := RoundToPixel(p.x);
      var j0 := RoundToPixel(p.y);
      PlaneOrientations(c, o)(p) != [] ==>
        h <= i0 < o.planes[k].cols - h - 1 && h <= j0 < o.planes[k].rows - h - 1
    ensures var k := c.planeIndex(o, p.scale);
      var ratio := o.sigma[k] / o.sigma[1];
      var h := HalfWidth(ratio);
      var i0 := RoundToPixel(p.x);
      var j0 := RoundToPixel(p.y);
      h <= i0 < o.planes[k].cols - h - 1 && h <= j0 < o.planes[k].rows - h - 1 ==>
        |PlaneOrientations(c, o)(p)| == |c.modes(o.planes[k], Window(i0 - h, j0 - h, 2 * h + 1), ratio)|
  {
  }

  /** A point moved from octave coordinates to original-image coordinates: the sub-pixel location
      is multiplied by the base scale and the integer location re-rounded from it, so that in the
      non-negative quadrant it lies within half a pixel of the new location; scale, orientation
      and interest are kept. */
  function Rescale(p: InterestPoint, baseScale: real): (q: InterestPoint)
    ensures q.x == p.x * baseScale && q.y == p.y * baseScale
    ensures q.ix == RoundToPixel(q.x) && q.iy == RoundToPixel(q.y)
    ensures 0.0 <= q.x ==> q.ix as real - 0.5 <= q.x < q.ix as real + 0.5
    ensures 0.0 <= q.y ==> q.iy as real - 0.5 <= q.y < q.iy as real + 0.5
    ensures q.scale == p.scale && q.orientation == p.orientation
    ensures q.interest == p.interest && q.descriptor == p.descriptor
  {
    var x := p.x * baseScale;
    var y := p.y * baseScale;
    p.(x := x, y := y, ix := RoundToPixel(x), iy := RoundToPixel(y))
  }

  function RescaleBy(baseScale: real): InterestPoint -> InterestPoint {
    (p: InterestPoint) => Rescale(p, baseScale)
  }

  /** The extrema of one octave after sub-pixel localisation. */
  function OctaveLocalized(cfg: ScaledConfig, c: ScaledCollaborators, o: Octave): seq<InterestPoint> {
    var interest := InterestImages(cfg.op, c, o);
    var raw := c.findPeaks(interest, o, PeakTypeOf(cfg.op));
    MapPoints(raw, (p: InterestPoint) => c.fitPeak(interest, o, p))
  }

  /** The localised points of one octave that pass the threshold of their plane, in order. */
  function OctaveSurvivors(cfg: ScaledConfig, c: ScaledCollaborators, o: Octave): seq<InterestPoint>
    requires Usable(c, o)
  {
    Filter(OctaveLocalized(cfg, c, o), PlaneAccepted(cfg.op, c, o))
  }

  /** The points of one octave after threshold and cull, before orientation assignment. */
  function OctaveCandidates(cfg: ScaledConfig, c: ScaledCollaborators, o: Octave): seq<InterestPoint>
    requires Usable(c, o)
  {
    Cull(OctaveSurvivors(cfg, c, o), cfg.maxPoints)
  }

  /** Each octave keeps its own most interesting survivors: its candidates are drawn from them in
      non-increasing interest, all of them when the limit does not bite, and no survivor it drops
      is more interesting than one it keeps. */
  lemma OctaveCandidatesAreBest(cfg: ScaledConfig, c: ScaledCollaborators, o: Octave)
    requires Usable(c, o)
    ensures SortedByInterest(OctaveCandidates(cfg, c, o))
    ensures multiset(OctaveCandidates(cfg, c, o)) <= multiset(OctaveSurvivors(cfg, c, o))
    ensures !Truncates(|OctaveSurvivors(cfg, c, o)|, cfg.maxPoints) ==>
      multiset(OctaveCandidates(cfg, c, o)) == multiset(OctaveSurvivors(cfg, c, o))
    ensures forall a, b ::
      a in OctaveCandidates(cfg, c, o) && b in multiset(OctaveSurvivors(cfg, c, o)) - multiset(OctaveCandidates(cfg, c, o)) ==>
        b.interest <= a.interest
  {
    CullKeepsBest(OctaveSurvivors(cfg, c, o), cfg.maxPoints);
  }

  /** One iteration of the octave loop, through the rescale. */
  function OctavePoints(cfg: ScaledConfig, c: ScaledCollaborators, o: Octave): seq<InterestPoint>
    requires Usable(c, o)
  {
    MapPoints(AssignOrientations(OctaveCandidates(cfg, c, o), PlaneOrientations(c, o)), RescaleBy(o.baseScale))
  }

  /** An octave contributes one point per orientation of each of at most `maxPoints` candidates. */
  lemma OctavePointsCount(cfg: ScaledConfig, c: ScaledCollaborators, o: Octave)
    requires Usable(c, o)
    ensures |OctavePoints(cfg, c, o)| == SplitCount(OctaveCandidates(cfg, c, o), PlaneOrientations(c, o))
    ensures 0 < cfg.maxPoints ==> |OctaveCandidates(cfg, c, o)| <= cfg.maxPoints
  {
  }

  /** Every point an octave contributes passed the threshold of the plane its scale selects. */
  lemma OctavePointsPassThreshold(cfg: ScaledConfig, c: ScaledCollaborators, o: Octave)
    requires Usable(c, o)
    ensures forall q :: q in OctavePoints(cfg, c, o) ==> PlaneAccepted(cfg.op, c, o)(q)
  {
    StagesKeepTest(OctaveLocalized(cfg, c, o), PlaneAccepted(cfg.op, c, o), cfg.maxPoints, PlaneOrientations(c, o), RescaleBy(o.baseScale));
  }

  /** A test that looks only at a point's interest and scale. */
  ghost predicate ByInterestAndScale(keep: InterestPoint -> bool) {
    forall p: InterestPoint, q: InterestPoint :: p.interest == q.interest && p.scale == q.scale ==> keep(p) == keep(q)
  }

  /** Whatever is kept by such a test stays kept through cull, orientation assignment and a change
      that preserves interest and scale. */
  lemma StagesKeepTest(ps: seq<InterestPoint>, keep: InterestPoint -> bool, maxPoints: int,
                       orient: InterestPoint -> seq<real>, f: InterestPoint -> InterestPoint)
    requires ByInterestAndScale(keep)
    requires forall q :: f(q).interest == q.interest && f(q).scale == q.scale
    ensures forall q :: q in MapPoints(AssignOrientations(Cull(Filter(ps, keep), maxPoints), orient), f) ==> keep(q)
  {
    var kept := Filter(ps, keep);
    FilterContents(ps, keep);
    var culled := Cull(kept, maxPoints);
    CullKeepsBest(kept, maxPoints);
    assert forall p :: p in culled ==> p in multiset(kept);
    OrientedKeepTest(culled, orient, keep);
    var oriented := AssignOrientations(culled, orient);
    forall q | q in MapPoints(oriented, f)
      ensures keep(q)
    {
      var i :| 0 <= i < |oriented| && q == f(oriented[i]);
      assert oriented[i] in oriented;
    }
  }

  /** Every point an octave contributes has its integer location re-rounded from its rescaled
      sub-pixel location. */
  lemma OctavePointsRounded(cfg: ScaledConfig, c: ScaledCollaborators, o: Octave)
    requires Usable(c, o)
    ensures forall q :: q in OctavePoints(cfg, c, o) ==> OnGrid(q)
  {
  }

  /** The integer location is the sub-pixel location rounded to the nearest pixel. */
  predicate OnGrid(q: InterestPoint) {
    q.ix == RoundToPixel(q.x) && q.iy == RoundToPixel(q.y)
  }

  /** Orientation assignment keeps interest and scale, so it keeps every point such a test keeps. */
  lemma OrientedKeepTest(ps: seq<InterestPoint>, orient: InterestPoint -> seq<real>, keep: InterestPoint -> bool)
    requires ByInterestAndScale(keep)
    requires forall p :: p in ps ==> keep(p)
    ensures forall q :: q in AssignOrientations(ps, orient) ==> keep(q)
  {
    AssignOrientationsOnlyReorients(ps, orient);
    forall q | q in AssignOrientations(ps, orient)
      ensures keep(q)
    {
      var i :| 0 <= i < |ps| && MapPoints(ps, Unoriented)[i] == Unoriented(q);
      assert Unoriented(ps[i]) == Unoriented(q);
      assert ps[i] in ps;
      assert ps[i].interest == q.interest && ps[i].scale == q.scale;
    }
  }

  /** For the two operators the plane handed to the threshold test does not matter: the scaled
      threshold keeps the same points as the single-plane one. */
  lemma PlaneThresholdIsPlaneFree(ps: seq<InterestPoint>, op: Operator, c: ScaledCollaborators, o: Octave, data: Image)
    requires Usable(c, o)
    ensures Filter(ps, PlaneAccepted(op, c, o)) == Filter(ps, Accepted(op, data))
  {
    FilterSameTest(ps, PlaneAccepted(op, c, o), Accepted(op, data));
  }

  /** `step` can process each of the first n octaves. */
  ghost predicate StepsDefined(step: Octave --> seq<InterestPoint>, c: ScaledCollaborators, first: Octave, n: int) {
    forall k: nat :: k < n ==> step.requires(OctaveAt(c, first, k))
  }

  /** The points of the first n octaves, octave by octave, when `step` processes one octave. */
  function AllOctaves(step: Octave --> seq<InterestPoint>, c: ScaledCollaborators, first: Octave, n: nat): seq<InterestPoint>
    requires StepsDefined(step, c, first, n)
  {
    if n == 0 then [] else AllOctaves(step, c, first, n - 1) + step(OctaveAt(c, first, n - 1))
  }

  /** The octave loop of `process_image` as the source runs it, given how one octave is processed:
      process the current octave, append its points, and build the next octave unless this was the
      last. It returns the points of every octave, octave by octave, and how many times it
      advanced the pyramid: once between consecutive octaves and never after the last. */
  method OctaveLoop(c: ScaledCollaborators, first: Octave, octaves: int, step: Octave --> seq<InterestPoint>)
    returns (points: seq<InterestPoint>, builds: nat)
    requires StepsDefined(step, c, first, octaves)
    ensures points == AllOctaves(step, c, first, if octaves < 0 then 0 else octaves)
    ensures builds == if octaves <= 0 then 0 else octaves - 1
  {
    var octave := first;
    points := [];
    builds := 0;
    var o := 0;
    while o < octaves
      invariant 0 <= o && (o <= octaves || o == 0)
      invariant points == AllOctaves(step, c, first, o)
      invariant o < octaves ==> octave == OctaveAt(c, first, o) && builds == o
      invariant o == octaves && 0 < o ==> builds == o - 1
      invariant o == 0 ==> builds == 0
    {
      var newPoints := step(octave);
      points := points + newPoints;
      if o != octaves - 1 {
        octave := c.buildNext(octave);
        builds := builds + 1;
      }
      o := o + 1;
    }
  }

  /** Processing of one octave, as the value the octave loop applies. */
  function OctaveStep(cfg: ScaledConfig, c: ScaledCollaborators): Octave --> seq<InterestPoint> {
    (o: Octave) requires Usable(c, o) => OctavePoints(cfg, c, o)
  }

  /** Every octave of the first n is usable. */
  ghost predicate AllUsable(c: ScaledCollaborators, first: Octave, n: int) {
    forall k: nat :: k < n ==> Usable(c, OctaveAt(c, first, k))
  }

  /** Whatever the step, the loop's points are on the pixel grid when every octave's are. */
  lemma {:induction false} AllOctavesOnGrid(step: Octave --> seq<InterestPoint>, c: ScaledCollaborators, first: Octave, n: nat)
    requires StepsDefined(step, c, first, n)
    requires forall k: nat :: k < n ==> forall q :: q in step(OctaveAt(c, first, k)) ==> OnGrid(q)
    ensures forall q :: q in AllOctaves(step, c, first, n) ==> OnGrid(q)
  {
    if n > 0 {
      AllOctavesOnGrid(step, c, first, n - 1);
    }
  }

  /** Every point the detector returns has its integer location re-rounded from its final sub-pixel one. */
  lemma AllOctavesRounded(cfg: ScaledConfig, c: ScaledCollaborators, first: Octave, n: nat)
    requires AllUsable(c, first, n)
    ensures StepsDefined(OctaveStep(cfg, c), c, first, n)
    ensures forall q :: q in AllOctaves(OctaveStep(cfg, c), c, first, n) ==> OnGrid(q)
  {
    var step := OctaveStep(cfg, c);
    forall k: nat | k < n
      ensures step.requires(OctaveAt(c, first, k))
      ensures forall q :: q in step(OctaveAt(c, first, k)) ==> OnGrid(q)
    {
      OctavePointsRounded(cfg, c, OctaveAt(c, first, k));
    }
    AllOctavesOnGrid(step, c, first, n);
  }

  /** `process_image` of the multi-octave detector: the octave loop over the pyramid built from the
      image, each octave processed by the single-scale stages. */
  method ProcessScaled(cfg: ScaledConfig, c: ScaledCollaborators, image: Image)
    returns (points: seq<InterestPoint>, builds: nat)
    requires AllUsable(c, c.buildFirst(image, cfg.scales), cfg.octaves)
    ensures StepsDefined(OctaveStep(cfg, c), c, c.buildFirst(image, cfg.scales), cfg.octaves)
    ensures points == AllOctaves(OctaveStep(cfg, c), c, c.buildFirst(image, cfg.scales), if cfg.octaves < 0 then 0 else cfg.octaves)
    ensures builds == if cfg.octaves <= 0 then 0 else cfg.octaves - 1
  {
    var first := c.buildFirst(image, cfg.scales);
    points, builds := OctaveLoop(c, first, cfg.octaves, OctaveStep(cfg, c));
  }
}

=== FILE: tiling.dfy ===
/** The detector front end (`InterestDetectorBase`): run a detector on the whole image, or on each
    tile of a partition, moving every tile's points into whole-image coordinates and concatenating
    them in tile order. */
module Tiling {
  import opened Descriptor
  import opened Lists
  import opened ImageData
  import opened InterestOperator
  import opened Culling
  import opened Detector

  /** An integer box; the merge uses only its minimum corner. */
  datatype BBox2i = BBox2i(minX: int, minY: int, maxX: int, maxY: int)

  /** A point moved by (dx, dy): both its sub-pixel and its integer location shift by that amount,
      nothing else changes, so the sub-pixel remainder x - ix is kept. */
  function Offset(p: InterestPoint, dx: int, dy: int): (q: InterestPoint)
    ensures q.x == p.x + dx as real && q.ix == p.ix + dx
    ensures q.y == p.y + dy as real && q.iy == p.iy + dy
    ensures q.x - q.ix as real == p.x - p.ix as real && q.y - q.iy as real == p.y - p.iy as real
    ensures q.scale == p.scale && q.orientation == p.orientation
    ensures q.interest == p.interest && q.descriptor == p.descriptor
  {
    p.(x := p.x + dx as real, ix := p.ix + dx, y := p.y + dy as real, iy := p.iy + dy)
  }

  function OffsetBy(dx: int, dy: int): InterestPoint -> InterestPoint {
    (p: InterestPoint) => Offset(p, dx, dy)
  }

  /** Moving back by the opposite amount restores the point. */
  lemma OffsetRoundTrip(p: InterestPoint, dx: int, dy: int)
    ensures Offset(Offset(p, dx, dy), -dx, -dy) == p
  {
  }

  /** Two moves add up. */
  lemma OffsetCompose(p: InterestPoint, dx1: int, dy1: int, dx2: int, dy2: int)
    ensures Offset(Offset(p, dx1, dy1), dx2, dy2) == Offset(p, dx1 + dx2, dy1 + dy2)
  {
  }

  /** The points one tile contributes: the detector's points for the cropped tile, moved by the
      tile's minimum corner. */
  function TilePoints(image: Image, box: BBox2i, process: Image -> seq<InterestPoint>,
                      cropTile: (Image, BBox2i) -> Image): (r: seq<InterestPoint>)
    ensures |r| == |process(cropTile(image, box))|
    ensures forall k :: 0 <= k < |r| ==> r[k] == Offset(process(cropTile(image, box))[k], box.minX, box.minY)
  {
    MapPoints(process(cropTile(image, box)), OffsetBy(box.minX, box.minY))
  }

  /** The tiles' points concatenated in tile order, with no re-sorting. */
  function MergeTiles(image: Image, boxes: seq<BBox2i>, process: Image -> seq<InterestPoint>,
                      cropTile: (Image, BBox2i) -> Image): seq<InterestPoint>
  {
    if |boxes| == 0 then []
    else TilePoints(image, boxes[0], process, cropTile) + MergeTiles(image, boxes[1..], process, cropTile)
  }

  /** Merging is tile-ordered: the merge of two runs of tiles is the first run's points followed
      by the second's. */
  lemma {:induction false} MergeTilesAppend(image: Image, a: seq<BBox2i>, b: seq<BBox2i>,
                                            process: Image -> seq<InterestPoint>, cropTile: (Image, BBox2i) -> Image)
    ensures MergeTiles(image, a + b, process, cropTile) ==
      MergeTiles(image, a, process, cropTile) + MergeTiles(image, b, process, cropTile)
    decreases |a|
  {
    if |a| == 0 {
      assert a + b == b;
    } else {
      assert (a + b)[1..] == a[1..] + b;
      MergeTilesAppend(image, a[1..], b, process, cropTile);
    }
  }

  /** Tile i's points occupy one contiguous slice of the merge, right after the points of tiles
      0..i-1, and that slice is exactly tile i's shifted points. */
  lemma TileSlice(image: Image, boxes: seq<BBox2i>, i: nat,
                  process: Image -> seq<InterestPoint>, cropTile: (Image, BBox2i) -> Image)
    requires i < |boxes|
    ensures var start := |MergeTiles(image, boxes[..i], process, cropTile)|;
      var tile := TilePoints(image, boxes[i], process, cropTile);
      && start + |tile| <= |MergeTiles(image, boxes, process, cropTile)|
      && MergeTiles(image, boxes, process, cropTile)[start..start + |tile|] == tile
  {
    assert boxes == boxes[..i] + ([boxes[i]] + boxes[i + 1..]);
    MergeTilesAppend(image, boxes[..i], [boxes[i]] + boxes[i + 1..], process, cropTile);
    assert ([boxes[i]] + boxes[i + 1..])[1..] == boxes[i + 1..];
  }

  /** The merge loop as the source runs it: for each box in turn, detect, shift, and splice the
      tile's points onto the end of the result. */
  method MergeTilesLoop(image: Image, boxes: seq<BBox2i>, process: Image -> seq<InterestPoint>,
                        cropTile: (Image, BBox2i) -> Image) returns (points: seq<InterestPoint>)
    ensures points == MergeTiles(image, boxes, process, cropTile)
  {
    points := [];
    var i := 0;
    while i < |boxes|
      invariant i <= |boxes|
      invariant points == MergeTiles(image, boxes[..i], process, cropTile)
    {
      var newPoints := process(cropTile(image, boxes[i]));
      var j := 0;
      var shifted := [];
      while j < |newPoints|
        invariant j <= |newPoints|
        invariant shifted == MapPoints(newPoints[..j], OffsetBy(boxes[i].minX, boxes[i].minY))
      {
        shifted := shifted + [Offset(newPoints[j], boxes[i].minX, boxes[i].minY)];
        j := j + 1;
      }
      assert newPoints[..j] == newPoints;
      assert boxes[..i + 1] == boxes[..i] + [boxes[i]];
      MergeTilesAppend(image, boxes[..i], [boxes[i]], process, cropTile);
      points := points + shifted;
      i := i + 1;
    }
    assert boxes[..i] == boxes;
  }

  /** `operator()`: a zero maximum tile dimension runs the detector once on the whole image;
      any other value runs it per block of the partition and merges. Either way the result holds
      exactly as many points as the detector runs produced. */
  function Detect(image: Image, maxDimension: int, process: Image -> seq<InterestPoint>,
                  blocks: (Image, int) -> seq<BBox2i>, cropTile: (Image, BBox2i) -> Image): (r: seq<InterestPoint>)
    ensures maxDimension == 0 ==> r == process(image)
    ensures maxDimension != 0 ==> r == MergeTiles(image, blocks(image, maxDimension), process, cropTile)
    ensures maxDimension != 0 ==> |r| == TileCount(image, blocks(image, maxDimension), process, cropTile)
  {
    if maxDimension == 0 then process(image)
    else
      MergeTilesCount(image, blocks(image, maxDimension), process, cropTile);
      MergeTiles(image, blocks(image, maxDimension), process, cropTile)
  }

  /** Total number of points the per-tile detector runs produce. */
  function TileCount(image: Image, boxes: seq<BBox2i>, process: Image -> seq<InterestPoint>,
                     cropTile: (Image, BBox2i) -> Image): nat
  {
    if |boxes| == 0 then 0
    else |process(cropTile(image, boxes[0]))| + TileCount(image, boxes[1..], process, cropTile)
  }

  /** Merging neither loses nor adds points. */
  lemma {:induction false} MergeTilesCount(image: Image, boxes: seq<BBox2i>,
                                           process: Image -> seq<InterestPoint>, cropTile: (Image, BBox2i) -> Image)
    ensures |MergeTiles(image, boxes, process, cropTile)| == TileCount(image, boxes, process, cropTile)
    decreases |boxes|
  {
    if |boxes| > 0 {
      MergeTilesCount(image, boxes[1..], process, cropTile);
    }
  }

  /** Thresholding is translation-invariant: shifting a tile's points and then thresholding them
      keeps the same points, shifted, as thresholding first. */
  lemma {:induction false} ThresholdCommutesWithOffset(ps: seq<InterestPoint>, op: Operator, data: Image, dx: int, dy: int)
    ensures Filter(MapPoints(ps, OffsetBy(dx, dy)), Accepted(op, data)) ==
      MapPoints(Filter(ps, Accepted(op, data)), OffsetBy(dx, dy))
    decreases |ps|
  {
    if |ps| > 0 {
      ThresholdCommutesWithOffset(ps[1..], op, data, dx, dy);
      assert MapPoints(ps, OffsetBy(dx, dy))[1..] == MapPoints(ps[1..], OffsetBy(dx, dy));
      assert MapPoints([ps[0]] + Filter(ps[1..], Accepted(op, data)), OffsetBy(dx, dy)) ==
        [Offset(ps[0], dx, dy)] + MapPoints(Filter(ps[1..], Accepted(op, data)), OffsetBy(dx, dy));
    }
  }

  /** Culling is translation-invariant: which points survive, and their order, depend only on interest. */
  lemma CullCommutesWithOffset(ps: seq<InterestPoint>, maxPoints: int, dx: int, dy: int)
    ensures Cull(MapPoints(ps, OffsetBy(dx, dy)), maxPoints) == MapPoints(Cull(ps, maxPoints), OffsetBy(dx, dy))
  {
    CullMapCommutes(ps, maxPoints, OffsetBy(dx, dy));
  }
}
